=== FILE: README.md ===
# DepthCamera capture pipeline, modelled in Dafny

DepthCamera is an iOS app that saves LiDAR depth captures from ARKit. This
project models the part of it that turns one frame into files:

- `writeDepthMapToRawFile` dumps a Float32 depth buffer (a CoreVideo
  `CVPixelBuffer`) into a `.raw` file.
- `writeDepthMapToTIFFWithLibTIFF` copies the same buffer into tiff_ios
  rasters and writes a single-band 32-bit float TIFF.
- `ARViewModel.session(_:didUpdate:)` remembers the latest frame.
- `ARViewModel.saveDepthMap` checks that a full frame is there, creates a
  date directory and attempts four writes under one timestamp stem.

Modules, one per concern:

| file | module | what |
|---|---|---|
| `wrappers.dfy` | `Wrappers` | `Option`, for Swift optionals |
| `pixel_buffers.dfy` | `PixelBuffers` | the buffer, its row stride and byte-offset arithmetic |
| `buffer_lock.dfy` | `BufferLock` | the lock/unlock protocol as a state machine over event traces |
| `raster_order.dfy` | `RasterOrder` | the row-major visiting order of the copy loop |
| `raw_writer.dfy` | `RawWriter` | the raw writer and the packed-grid reference |
| `tiff_writer.dfy` | `TiffWriter` | rasters, directory fields, the copy loop, the TIFF writer |
| `capture.dfy` | `Capture` | frame updates, file naming, `saveDepthMap` |

Modelling choices:

- **Pixel values are opaque.** Samples have a type parameter `T`. The
  backing store is a `seq<T>` of 32-bit words. The row stride is kept in
  words (`wordsPerRow`), so `bytesPerRow = 4 * wordsPerRow`, because Float32
  rows are word aligned.
- **Pixel addressing.** Pixel (x, y) is read `y * bytesPerRow + 4 * x`
  bytes past the base address (`PixelBuffers.Sample`).
- **Decimal conversion.** The TIFF writer stores `NSDecimalNumber(value:)`
  of each sample. This conversion is a function parameter `decimal: T -> D`
  and nothing is assumed about it.
- **Lock events.** Each writer returns its Bool result and a trace of
  `Lock`, `ReadPixels`, `WriteFile` and `Unlock` events on the depth buffer.
  `BufferLock` checks the trace against the protocol:
  - the unlock flags must match the lock flags;
  - locks do not nest;
  - reads happen only while the buffer is locked.
- **Environment inputs.** The outcomes of library constructors, of file
  writes and of directory creation are inputs. So are the date key, the
  timestamp text and tiff_ios's rows-per-strip value.
- **Swift traps.** A Swift integer conversion that traps (`Int32(_:)`,
  `UInt16(_:)`) becomes a precondition (`TiffWriter.NoTrap`). It only
  covers the paths that actually reach that conversion.

Notes on how the code behaves, which the model follows:

- **Raw dump includes padding.** The raw writer never reads `bytesPerRow`.
  It dumps the first `width * height` words of the buffer. The dump reads
  every pixel from its stride-aware word exactly when rows are unpadded,
  or there are fewer than two rows, or there are no columns
  (`RawWriter.RawReadsGridIffUnpadded`). Otherwise, with two or more padded
  rows, the dump contains padding words and leaves out trailing pixels
  (`RawWriter.PaddingReachesRawDump`). The TIFF writer does honour the
  stride.
- **Oversized TIFF dimensions trap.** A width, height or rows-per-strip
  above 65535 traps in `UInt16(_:)`. There is no error return for it.
- **TIFF write outcome is ignored.** Once `TIFFWriter.writeTiff` is called,
  the TIFF writer returns `true` without looking at the outcome.
- **The date key is not a plain calendar date.** The date format
  `"yyyyMMdd_with_parameters"` contains unquoted pattern letters. So the
  key is treated as an opaque string.
- **Equal timestamps overwrite.** There is no safeguard when two captures
  get equal timestamp text.
- **The Bool results are discarded.** `saveDepthMap` does not use the
  writers' Bool results. `lastCapture` is set once all four writes have
  been attempted.
- **Lock-held writes differ.** The raw writer releases its lock in a
  `defer`, so its file write happens while the buffer is locked. The TIFF
  writer unlocks right after the copy loop, so its write happens unlocked.

## Model

| member | source | states |
|---|---|---|
| PixelBuffers.PixelWord | DepthCamera/ContentView.swift:90-91 | the store word holding pixel (x, y) is the byte offset `y * bytesPerRow + 4 * x` divided by the sample size |
| PixelBuffers.Sample | DepthCamera/ContentView.swift:90-93 | the float read for pixel (x, y) at byte offset `y * bytesPerRow + 4 * x` is store word `y * wordsPerRow + x`, which lies inside the store |
| PixelBuffers.PixelWordInStore | DepthCamera/ContentView.swift:89-93 | every pixel the TIFF copy loop reads lies inside the buffer's store |
| PixelBuffers.PackedSizeInStore | DepthCamera/ContentView.swift:56-59 | reading `width * height` words from the base address stays inside the store |
| BufferLock.RunAppend | DepthCamera/ARViewModel.swift:75-76 | running two event traces one after the other is running the second from where the first left the lock |
| BufferLock.BalancedConcat | DepthCamera/ARViewModel.swift:75-76 | two writers that each leave the buffer unlocked can run in sequence and still leave it unlocked |
| BufferLock.RunCountsLocks | DepthCamera/ContentView.swift:77-97 | along a run that respects the protocol, unlocks trail locks by exactly the lock held at the end |
| BufferLock.BalancedReleasesEveryLock | DepthCamera/ContentView.swift:77-97 | a balanced trace releases every lock it takes |
| BufferLock.NeutralKeepsLock | DepthCamera/ContentView.swift:89-95 | reads and writes inside a critical section keep the lock held and neither take nor release it |
| BufferLock.SectionIsDisciplined | DepthCamera/ContentView.swift:46-49 | lock, body, unlock with the same flags locks once, unlocks once, ends unlocked and writes only under the lock |
| BufferLock.WriteAfterRelease | DepthCamera/ContentView.swift:97-120 | a file write after the unlock happens with the buffer unlocked and keeps the trace balanced |
| RasterOrder.RowMajorVisitsInOrder | DepthCamera/ContentView.swift:89-95 | the nested loops visit `width * height` cells, all inside the grid, strictly increasing in row-major order, so none twice |
| RasterOrder.RowMajorCoversGrid | DepthCamera/ContentView.swift:89-95 | every cell of the grid is visited |
| RasterOrder.RowMajorPosition | DepthCamera/ContentView.swift:89-95 | the k-th visited cell (x, y) satisfies `y * width + x == k` |
| RawWriter.Write | DepthCamera/ContentView.swift:42-70 | locks read-only once (first event) and unlocks read-only once (last event), after the write; makes no write and returns false without a base address, and writes exactly when it hands data over; otherwise hands exactly `width * height` samples (`width * height * 4` bytes) to the write, and these are a prefix of the store, and it returns true iff the write succeeds |
| RawWriter.RawIsPackedGridWhenUnpadded | DepthCamera/ContentView.swift:56-59 | with unpadded rows the dump equals the packed row-major grid |
| RawWriter.RawReadsGridIffUnpadded | DepthCamera/ContentView.swift:56-59 | the dump's packed offset `y * width + x` is the word the stride-aware reading of (x, y) uses, for all pixels, iff rows are unpadded or there are fewer than two rows or no columns |
| RawWriter.PaddingReachesRawDump | DepthCamera/ContentView.swift:56-63 | a 1x2 buffer with padded rows dumps its first pixel and a padding word rather than its two pixels |
| TiffWriter.Rasterize | DepthCamera/ContentView.swift:89-95 | the copy loop's result has `height` rows of `width` cells and leaves no cell unset |
| TiffWriter.RasterCellAtByteOffset | DepthCamera/ContentView.swift:89-95 | raster cell (x, y), for every x < width and y < height, is set to the decimal of the float at byte offset `y * bytesPerRow + 4 * x`, which is word aligned and inside the store |
| TiffWriter.CopyPixels | DepthCamera/ContentView.swift:84-95 | the copy loop fills fresh 1-sample 32-bit rasters with exactly that raster, setting cells in row-major order |
| TiffWriter.Write | DepthCamera/ContentView.swift:73-123 | locks once, first and with flags 0, and unlocks once on every path, the write after the unlock; returns true iff base address, rasters, directory and image all exist, and only then writes; the written image has one directory whose fields by tag are width, height, 32 bits, no compression, BlackIsZero, 1 sample, the given rows per strip, chunky, float, and which agrees with its fully set rasters |
| TiffWriter.TiffAgreesWithRawWhenUnpadded | DepthCamera/ContentView.swift:56-95 | with unpadded rows, TIFF raster cell (x, y) is the decimal of raw sample `y * width + x` |
| Capture.DidUpdate | DepthCamera/ARViewModel.swift:22-40 | a frame update always replaces the intrinsics and image, stores the frame's scene-depth map (none when the frame has no scene depth), and leaves lastCapture alone |
| Capture.LatestFrameWins | DepthCamera/ARViewModel.swift:22-28 | two updates in a row equal the second alone, and the model can save exactly when the last frame had scene depth |
| Capture.SaveDepthMap | DepthCamera/ARViewModel.swift:42-90 | with a piece of the frame missing: no directory, no write, no lock, model unchanged; when directory creation fails: no write, model unchanged; otherwise: intrinsics, TIFF, raw, JPEG attempted in that order at their stem URLs, each reporting its own outcome; the raw write gets the first `width * height` samples of the latest depth map and the TIFF write a single directory describing that map, with `Rasterize` of it as rasters; the lock is taken and released twice (`SaveRunsTiffThenRaw` fixes the order), and lastCapture is set to the image's preview |
| Capture.FileName | DepthCamera/ARViewModel.swift:62-65 | a file name is the timestamp text, an underscore, then the artifact's suffix |
| Capture.ArtifactUrl | DepthCamera/ARViewModel.swift:52-65 | an artifact's URL is the documents directory, then the date key, then the file name |
| Capture.ArtifactUrlsShareStem | DepthCamera/ARViewModel.swift:52-65 | the four URLs sit directly in the date directory, their names start with `"<timestamp>_"`, and they are pairwise distinct |
| Capture.DistinctStemsNeverCollide | DepthCamera/ARViewModel.swift:61-65 | different underscore-free timestamps never produce the same file name, whatever the artifacts |
| Capture.TwoCapturesEightFiles | DepthCamera/ARViewModel.swift:48-65 | two captures in the same date directory with different timestamps name eight distinct files |
| Capture.SaveRunsTiffThenRaw | DepthCamera/ARViewModel.swift:75-76 | when the writers are reached, the TIFF writer's critical section comes first, opening with a lock taken for writing, and the raw writer's comes last, closing with a read-only unlock; the TIFF directory handed over agrees with its rasters in size, samples per pixel, bits per sample and fill |
| Capture.WriteOutcomesAreIsolated | DepthCamera/ARViewModel.swift:67-84 | whatever the write outcomes, the same writes are attempted at the same URLs in the same order and the model, lastCapture included, ends the same |

## Left out

- The SwiftUI view `ContentView` (DepthCamera/ContentView.swift:12-37) and the ARKit session plumbing are user interface and platform runtime.
- Printing: all `print` logging is left out — the pixel-format and confidence-map checks in `session(_:didUpdate:)`, the `lastCapture` observer, the error and success messages of `saveDepthMap` and of both writers — because it changes no state the model keeps.
- `saveImage` (CoreImage JPEG encoding) is a foreign codec. It appears only as a success or failure input.
- `simd_float3x3.toData` (DepthCamera/ARViewModel.swift:93-98) produces `MemoryLayout<simd_float3x3>.size` bytes in simd's column layout. Those bytes are not visible from this code. The intrinsics file is only an attempted write, and no encode/decode round trip is stated.
- Capture.SaveDepthMap: does not state the bytes of the intrinsics file, for the reason above.
- `DateFormatter` and the text of the `Double` timestamp are inputs, not functions of a clock. The model does not capture that the code reads the clock twice.
- `DispatchQueue.main.async` is concurrency. `lastCapture` is set as the last step of the call.
- tiff_ios internals are not modelled:
  - `calculateRowsPerStrip` is an input;
  - the file bytes written by `TIFFWriter.writeTiff` are not modelled;
  - the decimal-to-Float32 conversion inside the library is not modelled.
- `NSDecimalNumber(value:)` is an uninterpreted function parameter. The model claims nothing about float precision.
- FileManager beyond success or failure is not modelled:
  - whether a failed `Data.write(to:)` leaves a partial file;
  - what `createDirectory` does with an existing directory.
- The return values of `CVPixelBufferLockBaseAddress` and `CVPixelBufferUnlockBaseAddress` are not checked by the code. The model takes locking to succeed.
- `FileManager.urls(for:in:).first!` never traps on iOS. The documents directory is an input.
- `width * height` overflowing a 64-bit `Int` is not modelled. Sizes are unbounded, apart from the 32-bit and 16-bit conversions of the TIFF writer.

=== FILE: buffer_lock.dfy ===
/** The lock protocol of CoreVideo pixel buffers, as a state machine over
    the events a writer performs on one buffer. A base address may only be
    read between CVPixelBufferLockBaseAddress and the matching
    CVPixelBufferUnlockBaseAddress, the unlock must pass the same flags as
    the lock, and a writer leaves the buffer as it found it: unlocked. */
module BufferLock {
  import opened Wrappers

  /** What a writer does with a depth buffer, in order. The lock flags are
      reduced to whether `.readOnly` was passed. `WriteFile` marks the
      moment the output file is handed to the file system. */
  datatype Event =
    | Lock(readOnly: bool)
    | ReadPixels
    | WriteFile
    | Unlock(readOnly: bool)

  datatype LockState = Unlocked | Locked(readOnly: bool)

  /** One transition; `None` is a protocol violation (a nested lock, an
      unlock without a lock or with other flags, a read while unlocked). */
  function Step(s: LockState, e: Event): Option<LockState> {
    match e
    case Lock(f) => if s.Unlocked? then Some(Locked(f)) else None
    case Unlock(f) => if s == Locked(f) then Some(Unlocked) else None
    case ReadPixels => if s.Locked? then Some(s) else None
    case WriteFile => Some(s)
  }

  /** Runs a whole trace from `s`; `None` if any step violates the protocol. */
  function Run(s: LockState, trace: seq<Event>): Option<LockState>
    decreases |trace|
  {
    if trace == [] then Some(s)
    else
      match Step(s, trace[0])
      case None => None
      case Some(t) => Run(t, trace[1..])
  }

  /** A trace that starts and ends unlocked without violating the protocol. */
  predicate Balanced(trace: seq<Event>) {
    Run(Unlocked, trace) == Some(Unlocked)
  }

  function Locks(trace: seq<Event>): nat {
    if trace == [] then 0 else (if trace[0].Lock? then 1 else 0) + Locks(trace[1..])
  }

  function Unlocks(trace: seq<Event>): nat {
    if trace == [] then 0 else (if trace[0].Unlock? then 1 else 0) + Unlocks(trace[1..])
  }

  /** The lock state in force when event `i` of the trace happens. */
  function StateAt(trace: seq<Event>, i: nat): Option<LockState>
    requires i <= |trace|
  {
    Run(Unlocked, trace[..i])
  }

  /** Every file write of the trace happens while the buffer is locked
      (`locked`) or while it is unlocked (`!locked`). */
  predicate WritesWhile(trace: seq<Event>, locked: bool) {
    forall i :: 0 <= i < |trace| && trace[i] == WriteFile ==>
      StateAt(trace, i).Some? && StateAt(trace, i).value.Locked? == locked
  }

  /** Running a concatenation runs the first part, then the second from
      wherever the first stopped. */
  lemma {:induction false} RunAppend(s: LockState, a: seq<Event>, b: seq<Event>)
    ensures Run(s, a + b) == (if Run(s, a).None? then None else Run(Run(s, a).value, b))
    decreases |a|
  {
    if a == [] {
      assert a + b == b;
    } else {
      assert (a + b)[0] == a[0];
      assert (a + b)[1..] == a[1..] + b;
      match Step(s, a[0])
      case None =>
      case Some(t) =>
        RunAppend(t, a[1..], b);
    }
  }

  /** Two writers that each leave the buffer unlocked can run one after the
      other and still leave it unlocked. */
  lemma BalancedConcat(a: seq<Event>, b: seq<Event>)
    requires Balanced(a) && Balanced(b)
    ensures Balanced(a + b)
  {
    RunAppend(Unlocked, a, b);
  }

  lemma {:induction false} LocksAppend(a: seq<Event>, b: seq<Event>)
    ensures Locks(a + b) == Locks(a) + Locks(b)
    ensures Unlocks(a + b) == Unlocks(a) + Unlocks(b)
    decreases |a|
  {
    if a == [] {
      assert a + b == b;
    } else {
      assert (a + b)[0] == a[0];
      assert (a + b)[1..] == a[1..] + b;
      LocksAppend(a[1..], b);
    }
  }

  /** Locks cannot nest, so along any protocol-respecting run the unlocks
      trail the locks by exactly the lock held at the end. In particular a
      balanced trace releases every lock it takes. */
  lemma {:induction false} RunCountsLocks(s: LockState, trace: seq<Event>)
    requires Run(s, trace).Some?
    ensures Locks(trace) + (if s.Locked? then 1 else 0)
         == Unlocks(trace) + (if Run(s, trace).value.Locked? then 1 else 0)
    decreases |trace|
  {
    if trace != [] {
      RunCountsLocks(Step(s, trace[0]).value, trace[1..]);
    }
  }

  lemma BalancedReleasesEveryLock(trace: seq<Event>)
    requires Balanced(trace)
    ensures Locks(trace) == Unlocks(trace)
  {
    RunCountsLocks(Unlocked, trace);
  }

  /** Events that do not touch the lock. */
  predicate LockNeutral(body: seq<Event>) {
    forall i :: 0 <= i < |body| ==> body[i] == ReadPixels || body[i] == WriteFile
  }

  /** A critical section: lock with the given flags, do `body`, unlock
      with the same flags. */
  function Section(readOnly: bool, body: seq<Event>): seq<Event> {
    [Lock(readOnly)] + body + [Unlock(readOnly)]
  }

  /** Inside a lock, lock-neutral events keep the lock held. */
  lemma {:induction false} NeutralKeepsLock(f: bool, body: seq<Event>)
    requires LockNeutral(body)
    ensures Run(Locked(f), body) == Some(Locked(f))
    ensures Locks(body) == 0 && Unlocks(body) == 0
    decreases |body|
  {
    if body != [] {
      NeutralKeepsLock(f, body[1..]);
    }
  }

  /** A critical section takes the lock once, releases it once, leaves the
      buffer unlocked, and every write in it happens under the lock. */
  lemma SectionIsDisciplined(f: bool, body: seq<Event>)
    requires LockNeutral(body)
    ensures Balanced(Section(f, body))
    ensures Locks(Section(f, body)) == 1 && Unlocks(Section(f, body)) == 1
    ensures WritesWhile(Section(f, body), true)
  {
    var t := Section(f, body);
    NeutralKeepsLock(f, body);
    RunAppend(Unlocked, [Lock(f)] + body, [Unlock(f)]);
    RunAppend(Unlocked, [Lock(f)], body);
    LocksAppend([Lock(f)] + body, [Unlock(f)]);
    LocksAppend([Lock(f)], body);
    forall i | 0 <= i < |t| && t[i] == WriteFile
      ensures StateAt(t, i).Some? && StateAt(t, i).value.Locked?
    {
      assert 1 <= i <= |body|;
      assert t[..i] == [Lock(f)] + body[..i - 1];
      assert LockNeutral(body[..i - 1]);
      NeutralKeepsLock(f, body[..i - 1]);
      RunAppend(Unlocked, [Lock(f)], body[..i - 1]);
    }
  }

  /** Writing a file after a balanced, write-free trace writes it with the
      buffer unlocked. */
  lemma WriteAfterRelease(trace: seq<Event>)
    requires Balanced(trace) && WriteFile !in trace
    ensures Balanced(trace + [WriteFile])
    ensures Locks(trace + [WriteFile]) == Locks(trace)
    ensures Unlocks(trace + [WriteFile]) == Unlocks(trace)
    ensures WritesWhile(trace + [WriteFile], false)
  {
    var t := trace + [WriteFile];
    RunAppend(Unlocked, trace, [WriteFile]);
    LocksAppend(trace, [WriteFile]);
    assert t[..|trace|] == trace;
  }
}

=== FILE: capture.dfy ===
/** ARViewModel: keeps the latest frame's depth map, camera image and
    intrinsics, and saves one capture on request. Frame contents are
    opaque: `T` is a depth sample, `I` a camera image, `M` an intrinsics
    matrix. The clock, the date formatter, the file system and the
    libraries behind each writer are inputs (`SaveEnv`). */
module Capture {
  import opened Wrappers
  import opened PixelBuffers
  import opened BufferLock
  import RawWriter
  import TiffWriter

  /** The parts of an ARFrame the view model reads. `sceneDepth` is the
      depth map of `frame.sceneDepth`, when the frame has scene depth. */
  datatype Frame<T, I, M> = Frame(intrinsics: M, sceneDepth: Option<PixelBuffer<T>>, capturedImage: I)

  /** `UIImage(ciImage: CIImage(cvPixelBuffer: image))`: the preview built
      from a captured image. */
  datatype Preview<I> = Preview(image: I)

  datatype ViewModel<T, I, M> = ViewModel(
    latestDepthMap: Option<PixelBuffer<T>>,
    latestImage: Option<I>,
    latestCameraIntrinsics: Option<M>,
    lastCapture: Option<Preview<I>>)
  {
    /** Depth maps delivered by the frame source respect CoreVideo's layout. */
    predicate Valid() {
      latestDepthMap.Some? ==> latestDepthMap.value.Valid()
    }

    /** The guard of saveDepthMap: all three pieces of the latest frame are
        present. */
    predicate Ready() {
      latestDepthMap.Some? && latestImage.Some? && latestCameraIntrinsics.Some?
    }
  }

  /** `session(_:didUpdate:)`: remember the new frame. */
  function DidUpdate<T, I, M>(m: ViewModel<T, I, M>, frame: Frame<T, I, M>): (m': ViewModel<T, I, M>)
    ensures m'.latestCameraIntrinsics == Some(frame.intrinsics)
    ensures m'.latestImage == Some(frame.capturedImage)
    ensures m'.latestDepthMap == frame.sceneDepth
    ensures m'.lastCapture == m.lastCapture
  {
    m.(latestCameraIntrinsics := Some(frame.intrinsics),
       latestDepthMap := frame.sceneDepth,
       latestImage := Some(frame.capturedImage))
  }

  /** Only the latest frame matters: updating with two frames in a row is
      the same as updating with the second alone, and the model is ready
      to save exactly when that frame had scene depth. */
  lemma LatestFrameWins<T, I, M>(m: ViewModel<T, I, M>, f1: Frame<T, I, M>, f2: Frame<T, I, M>)
    ensures DidUpdate(DidUpdate(m, f1), f2) == DidUpdate(m, f2)
    ensures DidUpdate(m, f2).Ready() <==> f2.sceneDepth.Some?
  {
  }

  /** The four artifacts of a capture, in the order they are written. */
  datatype Artifact = IntrinsicsDat | DepthTiff | DepthRaw | ImageJpg

  const WriteOrder: seq<Artifact> := [IntrinsicsDat, DepthTiff, DepthRaw, ImageJpg]

  function Suffix(a: Artifact): string {
    match a
    case IntrinsicsDat => "intrinsics.dat"
    case DepthTiff => "depth.tiff"
    case DepthRaw => "depth.raw"
    case ImageJpg => "image.jpg"
  }

  /** `"\(timestamp)_<suffix>"`, given the text of the timestamp. */
  function FileName(timestamp: string, a: Artifact): (name: string)
    ensures |name| == |timestamp| + 1 + |Suffix(a)|
    ensures name[..|timestamp|] == timestamp
    ensures name[|timestamp|] == '_'
    ensures name[|timestamp| + 1..] == Suffix(a)
  {
    timestamp + "_" + Suffix(a)
  }

  /** A file URL as its path components. */
  datatype Url = Url(components: seq<string>)

  /** `URL.appendingPathComponent`. */
  function Append(u: Url, component: string): Url {
    Url(u.components + [component])
  }

  /** What the surroundings decide for one call of saveDepthMap: the
      documents directory, the formatted date key and timestamp text, and
      the outcome of each file-system operation and writer library. */
  datatype SaveEnv = SaveEnv(
    documentsDir: Url,
    dateKey: string,
    timestamp: string,
    directoryCreated: bool,
    intrinsicsWritten: bool,
    tiff: TiffWriter.TiffEnv,
    rawWritten: bool,
    imageWritten: bool)

  function DateDirectory(env: SaveEnv): Url {
    Append(env.documentsDir, env.dateKey)
  }

  /** `<documents>/<date key>/<timestamp>_<suffix>`. */
  function ArtifactUrl(env: SaveEnv, a: Artifact): (u: Url)
    ensures |u.components| == |env.documentsDir.components| + 2
    ensures u.components[..|env.documentsDir.components|] == env.documentsDir.components
    ensures u.components[|env.documentsDir.components|] == env.dateKey
    ensures u.components[|env.documentsDir.components| + 1] == FileName(env.timestamp, a)
  {
    Append(DateDirectory(env), FileName(env.timestamp, a))
  }

  /** One attempted artifact write and the outcome its writer reports. */
  datatype Attempt = Attempt(artifact: Artifact, url: Url, succeeded: bool)

  datatype SaveStatus = NotAvailable | DirectoryFailed | Attempted

  /** The effect of one saveDepthMap call: how far it got, the directory it
      asked for, the artifact writes it attempted in order, the image handed
      to `TIFFWriter.writeTiff` and the samples handed to the raw file write
      (`None` when that write was not reached), the lock events on the depth
      map, and the view model afterwards. */
  datatype SaveResult<T, D, I, M> = SaveResult(
    status: SaveStatus,
    directory: Option<Url>,
    attempts: seq<Attempt>,
    tiffImage: Option<TiffWriter.TiffImage<D>>,
    rawData: Option<seq<T>>,
    events: seq<Event>,
    model: ViewModel<T, I, M>)

  function Artifacts(attempts: seq<Attempt>): seq<Artifact> {
    seq(|attempts|, i requires 0 <= i < |attempts| => attempts[i].artifact)
  }

  /** The TIFF writer's integer conversions do not trap on the depth map
      saveDepthMap would hand it. */
  predicate SaveNoTrap<T, I, M>(m: ViewModel<T, I, M>, env: SaveEnv) {
    m.Ready() && env.directoryCreated ==> TiffWriter.NoTrap(m.latestDepthMap.value, env.tiff)
  }

  /** saveDepthMap. `decimal` is the NSDecimalNumber conversion the TIFF
      writer applies to each sample. */
  function SaveDepthMap<T, D, I, M>(m: ViewModel<T, I, M>, env: SaveEnv, decimal: T -> D): (r: SaveResult<T, D, I, M>)
    requires m.Valid() && SaveNoTrap(m, env)
    ensures !(m.Ready() && env.directoryCreated) ==> r.tiffImage.None? && r.rawData.None?
    ensures !m.Ready() ==>
      r.status == NotAvailable && r.directory.None? && r.attempts == [] && r.events == [] && r.model == m
    ensures m.Ready() && !env.directoryCreated ==>
      && r.status == DirectoryFailed && r.directory == Some(DateDirectory(env))
      && r.attempts == [] && r.events == [] && r.model == m
    ensures m.Ready() && env.directoryCreated ==>
      && r.status == Attempted && r.directory == Some(DateDirectory(env))
      && Artifacts(r.attempts) == WriteOrder
      && (forall i :: 0 <= i < |r.attempts| ==> r.attempts[i].url == ArtifactUrl(env, WriteOrder[i]))
      && r.model == m.(lastCapture := Some(Preview(m.latestImage.value)))
    ensures m.Ready() && env.directoryCreated ==>
      var depthMap := m.latestDepthMap.value;
      && (r.attempts[0].succeeded <==> env.intrinsicsWritten)
      && (r.attempts[1].succeeded <==>
            depthMap.baseAddress.Some? && env.tiff.rastersAllocated
            && env.tiff.directoryAllocated && env.tiff.imageAllocated)
      && (r.attempts[2].succeeded <==> depthMap.baseAddress.Some? && env.rawWritten)
      && (r.attempts[3].succeeded <==> env.imageWritten)
    ensures m.Ready() && env.directoryCreated ==>
      var depthMap := m.latestDepthMap.value;
      && (r.rawData.Some? <==> depthMap.baseAddress.Some?)
      && (r.rawData.Some? ==>
            |r.rawData.value| == depthMap.width * depthMap.height
            && r.rawData.value <= depthMap.baseAddress.value)
      && (r.tiffImage.Some? <==> r.attempts[1].succeeded)
      && (r.tiffImage.Some? ==>
            && depthMap.baseAddress.Some?
            && |r.tiffImage.value.fileDirectories| == 1
            && TiffWriter.DescribesFloatImage(r.tiffImage.value.fileDirectories[0],
                 depthMap.width, depthMap.height, env.tiff.rowsPerStrip)
            && r.tiffImage.value.fileDirectories[0].writeRasters.rows == TiffWriter.Rasterize(depthMap, decimal))
    ensures Balanced(r.events)
    ensures Locks(r.events) == Unlocks(r.events) == (if r.status == Attempted then 2 else 0)
  {
    if !m.Ready() then
      SaveResult(NotAvailable, None, [], None, None, [], m)
    else
      var dir := DateDirectory(env);
      if !env.directoryCreated then
        SaveResult(DirectoryFailed, Some(dir), [], None, None, [], m)
      else
        var depthMap := m.latestDepthMap.value;
        var tiff := TiffWriter.Write(depthMap, env.tiff, decimal);
        var raw := RawWriter.Write(depthMap, env.rawWritten);
        var attempts := [
          Attempt(IntrinsicsDat, ArtifactUrl(env, IntrinsicsDat), env.intrinsicsWritten),
          Attempt(DepthTiff, ArtifactUrl(env, DepthTiff), tiff.ok),
          Attempt(DepthRaw, ArtifactUrl(env, DepthRaw), raw.ok),
          Attempt(ImageJpg, ArtifactUrl(env, ImageJpg), env.imageWritten)];
        BalancedConcat(tiff.events, raw.events);
        LocksAppend(tiff.events, raw.events);
        SaveResult(Attempted, Some(dir), attempts, tiff.image, raw.data, tiff.events + raw.events,
          m.(lastCapture := Some(Preview(m.latestImage.value))))
  }

  /** A save that reaches the writers runs the TIFF writer's critical
      section first, taking the lock for writing, and the raw writer's
      last, releasing a read-only lock; the directory handed to the TIFF
      library agrees with the rasters it carries. */
  lemma SaveRunsTiffThenRaw<T, D, I, M>(m: ViewModel<T, I, M>, env: SaveEnv, decimal: T -> D)
    requires m.Valid() && SaveNoTrap(m, env)
    requires m.Ready() && env.directoryCreated
    ensures var r := SaveDepthMap(m, env, decimal);
      && |r.events| >= 4
      && r.events[0] == Lock(false)
      && r.events[|r.events| - 1] == Unlock(true)
      && (r.tiffImage.Some? ==> TiffWriter.AgreesWithRasters(r.tiffImage.value.fileDirectories[0]))
  {
    var r := SaveDepthMap(m, env, decimal);
    var depthMap := m.latestDepthMap.value;
    var tiff := TiffWriter.Write(depthMap, env.tiff, decimal);
    var raw := RawWriter.Write(depthMap, env.rawWritten);
    assert r.events == tiff.events + raw.events;
    assert r.tiffImage == tiff.image;
    assert r.events[|r.events| - 1] == raw.events[|raw.events| - 1];
  }

  /** The four files of one capture sit in the date directory, their names
      start with the shared stem `"<timestamp>_"`, and no two of them
      coincide. */
  lemma ArtifactUrlsShareStem(env: SaveEnv)
    ensures forall a: Artifact ::
      && ArtifactUrl(env, a).components[..|DateDirectory(env).components|] == DateDirectory(env).components
      && |ArtifactUrl(env, a).components| == |DateDirectory(env).components| + 1
      && FileName(env.timestamp, a)[..|env.timestamp| + 1] == env.timestamp + "_"
    ensures forall a: Artifact, b: Artifact :: a != b ==> ArtifactUrl(env, a) != ArtifactUrl(env, b)
  {
    forall a: Artifact, b: Artifact | a != b
      ensures ArtifactUrl(env, a) != ArtifactUrl(env, b)
    {
      var n := |env.timestamp| + 1;
      assert FileName(env.timestamp, a)[n..] == Suffix(a);
      assert FileName(env.timestamp, b)[n..] == Suffix(b);
      assert Suffix(a) != Suffix(b);
      var k := |DateDirectory(env).components|;
      assert ArtifactUrl(env, a).components[k] == FileName(env.timestamp, a);
      assert ArtifactUrl(env, b).components[k] == FileName(env.timestamp, b);
    }
  }

  /** Two captures with different timestamps never name the same file, as
      long as the timestamp text holds no underscore (the text of a Swift
      Double never does): the first underscore ends the stem. */
  lemma {:induction false} DistinctStemsNeverCollide(t1: string, t2: string, a: Artifact, b: Artifact)
    requires t1 != t2
    requires '_' !in t1 && '_' !in t2
    ensures FileName(t1, a) != FileName(t2, b)
  {
    var n1, n2 := FileName(t1, a), FileName(t2, b);
    if |t1| < |t2| {
      assert n1[|t1|] == '_' && n2[|t1|] == t2[|t1|];
    } else if |t2| < |t1| {
      assert n2[|t2|] == '_' && n1[|t2|] == t1[|t2|];
    } else {
      var j :| 0 <= j < |t1| && t1[j] != t2[j];
      assert n1[j] == t1[j] && n2[j] == t2[j];
    }
  }

  /** Two saves into the same date directory with different timestamps
      leave eight distinct files: none of the second capture's files
      overwrites one of the first's. */
  lemma TwoCapturesEightFiles(e1: SaveEnv, e2: SaveEnv)
    requires DateDirectory(e1) == DateDirectory(e2)
    requires e1.timestamp != e2.timestamp
    requires '_' !in e1.timestamp && '_' !in e2.timestamp
    ensures forall a: Artifact, b: Artifact :: ArtifactUrl(e1, a) != ArtifactUrl(e2, b)
    ensures forall a: Artifact, b: Artifact :: a != b ==>
      ArtifactUrl(e1, a) != ArtifactUrl(e1, b) && ArtifactUrl(e2, a) != ArtifactUrl(e2, b)
  {
    ArtifactUrlsShareStem(e1);
    ArtifactUrlsShareStem(e2);
    forall a: Artifact, b: Artifact
      ensures ArtifactUrl(e1, a) != ArtifactUrl(e2, b)
    {
      DistinctStemsNeverCollide(e1.timestamp, e2.timestamp, a, b);
      var k := |DateDirectory(e1).components|;
      assert ArtifactUrl(e1, a).components[k] == FileName(e1.timestamp, a);
      assert ArtifactUrl(e2, b).components[k] == FileName(e2.timestamp, b);
    }
  }

  /** Environments that agree on where and whether the directory is made. */
  predicate SameSetup(e1: SaveEnv, e2: SaveEnv) {
    && e1.documentsDir == e2.documentsDir
    && e1.dateKey == e2.dateKey
    && e1.timestamp == e2.timestamp
    && e1.directoryCreated == e2.directoryCreated
  }

  /** Per-artifact failure isolation: however the four writes turn out,
      the same writes are attempted at the same URLs in the same order, and
      the view model ends up the same, including lastCapture. */
  lemma WriteOutcomesAreIsolated<T, D, I, M>(m: ViewModel<T, I, M>, e1: SaveEnv, e2: SaveEnv, decimal: T -> D)
    requires m.Valid() && SaveNoTrap(m, e1) && SaveNoTrap(m, e2)
    requires SameSetup(e1, e2)
    ensures var r1, r2 := SaveDepthMap(m, e1, decimal), SaveDepthMap(m, e2, decimal);
      && r1.status == r2.status
      && r1.directory == r2.directory
      && Artifacts(r1.attempts) == Artifacts(r2.attempts)
      && |r1.attempts| == |r2.attempts|
      && (forall i :: 0 <= i < |r1.attempts| ==> r1.attempts[i].url == r2.attempts[i].url)
      && r1.model == r2.model
  {
  }
}

=== FILE: pixel_buffers.dfy ===
/** CoreVideo pixel buffers that hold one 32-bit float sample per pixel
    (the depth maps ARKit delivers), and the layout arithmetic the two depth
    writers use to read them. */
module PixelBuffers {
  import opened Wrappers

  /** Size in bytes of one Float32 sample. */
  const Float32Size: nat := 4

  /** A one-component Float32 pixel buffer. The backing store is a sequence
      of 32-bit words whose contents are opaque (`T`); `wordsPerRow` is the
      row stride in samples, so `BytesPerRow()` is always a multiple of the
      sample size. `baseAddress` is `None` when CoreVideo hands out no base
      address for the buffer. */
  datatype PixelBuffer<T> = PixelBuffer(
    width: nat,
    height: nat,
    wordsPerRow: nat,
    baseAddress: Option<seq<T>>)
  {
    /** CVPixelBufferGetBytesPerRow. */
    function BytesPerRow(): nat {
      Float32Size * wordsPerRow
    }

    /** CoreVideo's layout guarantee: a row has room for `width` samples
        (padding may follow them) and the store spans `height` rows. */
    predicate Valid() {
      && width <= wordsPerRow
      && (baseAddress.Some? ==> height * wordsPerRow <= |baseAddress.value|)
    }
  }

  /** The byte offset from the base address at which pixel (x, y) lives. */
  function ByteOffset(bytesPerRow: nat, x: nat, y: nat): nat {
    y * bytesPerRow + Float32Size * x
  }

  /** The word of the backing store that holds pixel (x, y). */
  function PixelWord<T>(buf: PixelBuffer<T>, x: nat, y: nat): (k: nat)
    ensures Float32Size * k == ByteOffset(buf.BytesPerRow(), x, y)
  {
    var k := y * buf.wordsPerRow + x;
    assert y * buf.BytesPerRow() == Float32Size * (y * buf.wordsPerRow) by {
      MulSwap(y, Float32Size, buf.wordsPerRow);
    }
    k
  }

  lemma MulSwap(a: nat, b: nat, c: nat)
    ensures a * (b * c) == b * (a * c)
  {
  }

  /** In a valid buffer every pixel of the width x height grid lies inside
      the backing store. */
  lemma PixelWordInStore<T>(buf: PixelBuffer<T>, x: nat, y: nat)
    requires buf.Valid() && buf.baseAddress.Some?
    requires x < buf.width && y < buf.height
    ensures PixelWord(buf, x, y) < |buf.baseAddress.value|
  {
    MulMonotone(y + 1, buf.height, buf.wordsPerRow);
    assert (y + 1) * buf.wordsPerRow == y * buf.wordsPerRow + buf.wordsPerRow;
  }

  /** The float the TIFF writer reads for pixel (x, y): the word found
      `y * bytesPerRow + 4 * x` bytes past the base address. */
  function Sample<T>(buf: PixelBuffer<T>, x: nat, y: nat): (s: T)
    requires buf.Valid() && buf.baseAddress.Some?
    requires x < buf.width && y < buf.height
    ensures PixelWord(buf, x, y) < |buf.baseAddress.value|
    ensures s == buf.baseAddress.value[y * buf.wordsPerRow + x]
  {
    var k := PixelWord(buf, x, y);
    PixelWordInStore(buf, x, y);
    assert ByteOffset(buf.BytesPerRow(), x, y) / Float32Size == k;
    buf.baseAddress.value[ByteOffset(buf.BytesPerRow(), x, y) / Float32Size]
  }

  /** The packed size `width * height` fits inside the store of a valid
      buffer, so reading that many words from the base address stays in
      bounds. */
  lemma PackedSizeInStore<T>(buf: PixelBuffer<T>)
    requires buf.Valid() && buf.baseAddress.Some?
    ensures buf.width * buf.height <= |buf.baseAddress.value|
  {
    MulMonotone(buf.width, buf.wordsPerRow, buf.height);
    assert buf.width * buf.height == buf.height * buf.width;
    assert buf.wordsPerRow * buf.height == buf.height * buf.wordsPerRow;
  }

  lemma MulMonotone(a: nat, b: nat, c: nat)
    requires a <= b
    ensures a * c <= b * c
  {
  }
}

=== FILE: raster_order.dfy ===
/** The order in which the TIFF writer visits the cells of a width x height
    raster: `for y in 0..<height { for x in 0..<width { ... } }`. */
module RasterOrder {

  datatype Cell = Cell(x: nat, y: nat)

  /** Row-major precedence: an earlier row, or the same row further left. */
  predicate Before(a: Cell, b: Cell) {
    a.y < b.y || (a.y == b.y && a.x < b.x)
  }

  predicate InGrid(c: Cell, width: nat, height: nat) {
    c.x < width && c.y < height
  }

  /** The first `n` cells of row `y`, left to right (one inner-loop run). */
  function Row(y: nat, n: nat): seq<Cell> {
    seq(n, (i: nat) => Cell(i, y))
  }

  /** The cells visited by the first `h` runs of the outer loop. */
  function RowMajor(width: nat, h: nat): seq<Cell> {
    if h == 0 then [] else RowMajor(width, h - 1) + Row(h - 1, width)
  }

  /** One more inner-loop step extends the row by the next cell. */
  lemma RowStep(y: nat, n: nat)
    ensures Row(y, n + 1) == Row(y, n) + [Cell(n, y)]
  {
  }

  /** The visit order has one entry per cell of the grid, every entry lies
      in the grid, and the entries strictly increase in row-major order, so
      no cell is visited twice. */
  lemma {:induction false} RowMajorVisitsInOrder(width: nat, h: nat)
    ensures |RowMajor(width, h)| == width * h
    ensures forall k :: 0 <= k < |RowMajor(width, h)| ==> InGrid(RowMajor(width, h)[k], width, h)
    ensures forall i, j :: 0 <= i < j < |RowMajor(width, h)| ==>
      Before(RowMajor(width, h)[i], RowMajor(width, h)[j])
  {
    if h > 0 {
      RowMajorVisitsInOrder(width, h - 1);
      var prev: seq<Cell>, row: seq<Cell> := RowMajor(width, h - 1), Row(h - 1, width);
      assert RowMajor(width, h) == prev + row;
      assert width * h == width * (h - 1) + width;
      forall i, j | 0 <= i < j < |prev + row|
        ensures Before((prev + row)[i], (prev + row)[j])
      {
        if j < |prev| {
          assert Before(prev[i], prev[j]);
        } else if i < |prev| {
          assert InGrid(prev[i], width, h - 1);
        }
      }
    }
  }

  /** Every cell of the grid is visited. */
  lemma {:induction false} RowMajorCoversGrid(width: nat, h: nat, x: nat, y: nat)
    requires x < width && y < h
    ensures Cell(x, y) in RowMajor(width, h)
  {
    if y == h - 1 {
      assert Row(y, width)[x] == Cell(x, y);
    } else {
      RowMajorCoversGrid(width, h - 1, x, y);
    }
  }

  /** The k-th visited cell is the one a packed row-major layout stores at
      offset k, that is offset y * width + x. */
  lemma {:induction false} RowMajorPosition(width: nat, h: nat)
    ensures |RowMajor(width, h)| == width * h
    ensures forall k :: 0 <= k < |RowMajor(width, h)| ==>
      RowMajor(width, h)[k].y * width + RowMajor(width, h)[k].x == k
  {
    if h > 0 {
      RowMajorPosition(width, h - 1);
      var prev: seq<Cell>, row: seq<Cell> := RowMajor(width, h - 1), Row(h - 1, width);
      assert width * h == width * (h - 1) + width;
      assert (h - 1) * width == width * (h - 1);
      forall k | 0 <= k < |prev + row|
        ensures (prev + row)[k].y * width + (prev + row)[k].x == k
      {
        if k >= |prev| {
          assert (prev + row)[k] == Cell(k - |prev|, h - 1);
        }
      }
    }
  }
}

=== FILE: raw_writer.dfy ===
/** writeDepthMapToRawFile: dumps a depth buffer to a `.raw` file of
    native-endian Float32 values. */
module RawWriter {
  import opened Wrappers
  import opened PixelBuffers
  import opened BufferLock
  import opened RasterOrder

  /** One run of the raw writer: the Bool it returns, what it did to the
      buffer's lock, and the samples it handed to `Data.write(to:)` (`None`
      when no write was attempted). */
  datatype RawRun<T> = RawRun(ok: bool, events: seq<Event>, data: Option<seq<T>>)

  /** Size in bytes of a dump of Float32 samples. */
  function ByteLength<T>(words: seq<T>): nat {
    Float32Size * |words|
  }

  /** The reference layout of a depth map: its width x height pixels, read
      through the row stride, in row-major order with the row padding left
      out. */
  function PackedGrid<T>(buf: PixelBuffer<T>): (g: seq<T>)
    requires buf.Valid() && buf.baseAddress.Some?
    ensures |g| == buf.width * buf.height
  {
    var cells := RowMajor(buf.width, buf.height);
    RowMajorVisitsInOrder(buf.width, buf.height);
    seq(|cells|, k requires 0 <= k < |cells| => Sample(buf, cells[k].x, cells[k].y))
  }

  /** The writer. `writeSucceeds` is the file system's answer to
      `data.write(to: url)`; the lock is taken read-only and released by a
      `defer`, so after the write. */
  function Write<T>(depthMap: PixelBuffer<T>, writeSucceeds: bool): (r: RawRun<T>)
    requires depthMap.Valid()
    ensures Balanced(r.events) && Locks(r.events) == 1 && Unlocks(r.events) == 1
    ensures |r.events| >= 2 && r.events[0] == Lock(true) && r.events[|r.events| - 1] == Unlock(true)
    ensures WritesWhile(r.events, true)
    ensures WriteFile in r.events <==> r.data.Some?
    ensures r.ok <==> depthMap.baseAddress.Some? && writeSucceeds
    ensures r.data.Some? <==> depthMap.baseAddress.Some?
    ensures r.data.Some? ==> ByteLength(r.data.value) == depthMap.width * depthMap.height * Float32Size
    ensures r.data.Some? ==> r.data.value <= depthMap.baseAddress.value
  {
    match depthMap.baseAddress
    case None =>
      SectionIsDisciplined(true, []);
      RawRun(false, Section(true, []), None)
    case Some(store) =>
      var totalPixels := depthMap.width * depthMap.height;
      PackedSizeInStore(depthMap);
      SectionIsDisciplined(true, [ReadPixels, WriteFile]);
      RawRun(writeSucceeds, Section(true, [ReadPixels, WriteFile]), Some(store[..totalPixels]))
  }

  /** When rows carry no padding the dump is exactly the packed grid. */
  lemma RawIsPackedGridWhenUnpadded<T>(depthMap: PixelBuffer<T>, writeSucceeds: bool)
    requires depthMap.Valid() && depthMap.baseAddress.Some?
    requires depthMap.wordsPerRow == depthMap.width
    ensures Write(depthMap, writeSucceeds).data == Some(PackedGrid(depthMap))
  {
    RowMajorPosition(depthMap.width, depthMap.height);
    var dump, grid := Write(depthMap, writeSucceeds).data.value, PackedGrid(depthMap);
    assert |dump| == |grid|;
    forall k | 0 <= k < |grid|
      ensures dump[k] == grid[k]
    {
      var c := RowMajor(depthMap.width, depthMap.height)[k];
      assert PixelWord(depthMap, c.x, c.y) == k;
    }
    assert dump == grid;
  }

  /** The dump takes the pixel at packed offset y * width + x from the word
      the stride-aware reading of (x, y) uses, for every pixel, exactly when
      the buffer has no row padding (or fewer than two rows, or no columns):
      `bytesPerRow` never enters the raw writer. */
  lemma RawReadsGridIffUnpadded<T>(depthMap: PixelBuffer<T>)
    requires depthMap.Valid()
    ensures (forall x: nat, y: nat | x < depthMap.width && y < depthMap.height ::
               y * depthMap.width + x == PixelWord(depthMap, x, y))
        <==> (depthMap.width == 0 || depthMap.height <= 1 || depthMap.wordsPerRow == depthMap.width)
  {
    if depthMap.width > 0 && depthMap.height > 1 && depthMap.wordsPerRow != depthMap.width {
      assert PixelWord(depthMap, 0, 1) == depthMap.wordsPerRow;
    }
  }

  /** A one-pixel-wide, two-row buffer whose rows are padded to two words:
      the dump holds the first pixel and the padding word, not the two
      pixels. */
  lemma PaddingReachesRawDump()
    ensures var buf := PixelBuffer(1, 2, 2, Some([10, 99, 20, 98]));
      && Write(buf, true).data == Some([10, 99])
      && PackedGrid(buf) == [10, 20]
  {
    var buf := PixelBuffer(1, 2, 2, Some([10, 99, 20, 98]));
    assert [10, 99, 20, 98][..2] == [10, 99];
    assert RowMajor(1, 2) == [Cell(0, 0), Cell(0, 1)] by {
      assert RowMajor(1, 1) == [Cell(0, 0)];
    }
  }
}

=== FILE: tiff_writer.dfy ===
/** writeDepthMapToTIFFWithLibTIFF: stores a depth buffer as a single-band,
    uncompressed, 32-bit floating-point TIFF through the tiff_ios library.
    The library's objects (TIFFRasters, TIFFFileDirectory, TIFFImage) are
    modelled as values; its byte layout and file writing are not. */
module TiffWriter {
  import opened Wrappers
  import opened PixelBuffers
  import opened BufferLock
  import opened RasterOrder
  import RawWriter

  // Field tags of TIFF Revision 6.0: section 8 (baseline) and section 19
  // (SampleFormat).
  const ImageWidthTag: nat := 256
  const ImageLengthTag: nat := 257
  const BitsPerSampleTag: nat := 258
  const CompressionTag: nat := 259
  const PhotometricInterpretationTag: nat := 262
  const SamplesPerPixelTag: nat := 277
  const RowsPerStripTag: nat := 278
  const PlanarConfigurationTag: nat := 284
  const SampleFormatTag: nat := 339

  // Field values, TIFF Revision 6.0.
  /** Compression = 1: no compression. */
  const CompressionNone: nat := 1
  /** PhotometricInterpretation = 1: BlackIsZero. */
  const PhotometricBlackIsZero: nat := 1
  /** PlanarConfiguration = 1: chunky. */
  const PlanarChunky: nat := 1
  /** SampleFormat = 3: IEEE floating point data. */
  const SampleFormatFloat: nat := 3

  /** Swift's `UInt16(_:)` and `Int32(_:)` trap above these. */
  const UInt16Max: nat := 0xFFFF
  const Int32Max: nat := 0x7FFF_FFFF

  /** TIFFRasters: a width x height grid of samples, one sample per pixel
      here, indexed `rows[y][x]`. A cell is `None` until it is set; `D` is
      the type of the NSDecimalNumber values the writer stores. */
  datatype Rasters<D> = Rasters(
    width: nat,
    height: nat,
    samplesPerPixel: nat,
    bitsPerSample: nat,
    rows: seq<seq<Option<D>>>)

  /** `TIFFRasters(width:andHeight:andSamplesPerPixel:andSingleBitsPerSample:)`
      on successful allocation: no cell set yet. */
  function NewRasters<D>(width: nat, height: nat, samplesPerPixel: nat, bitsPerSample: nat): Rasters<D> {
    Rasters(width, height, samplesPerPixel, bitsPerSample,
      seq(height, _ => seq(width, _ => None)))
  }

  /** `setFirstPixelSampleAtX(x, andY: y, withValue: v)`. */
  function SetFirstPixelSample<D>(r: Rasters<D>, x: nat, y: nat, v: D): (r': Rasters<D>)
    requires y < |r.rows| && x < |r.rows[y]|
  {
    r.(rows := r.rows[y := r.rows[y][x := Some(v)]])
  }

  /** TIFFFileDirectory after the writer's setters. */
  datatype FileDirectory<D> = FileDirectory(
    imageWidth: nat,
    imageLength: nat,
    bitsPerSample: nat,
    compression: nat,
    photometricInterpretation: nat,
    samplesPerPixel: nat,
    rowsPerStrip: nat,
    planarConfiguration: nat,
    sampleFormat: nat,
    writeRasters: Rasters<D>)

  /** The value a directory records under a TIFF tag, if any. */
  function Field<D>(d: FileDirectory<D>, tag: nat): Option<nat> {
    if tag == ImageWidthTag then Some(d.imageWidth)
    else if tag == ImageLengthTag then Some(d.imageLength)
    else if tag == BitsPerSampleTag then Some(d.bitsPerSample)
    else if tag == CompressionTag then Some(d.compression)
    else if tag == PhotometricInterpretationTag then Some(d.photometricInterpretation)
    else if tag == SamplesPerPixelTag then Some(d.samplesPerPixel)
    else if tag == RowsPerStripTag then Some(d.rowsPerStrip)
    else if tag == PlanarConfigurationTag then Some(d.planarConfiguration)
    else if tag == SampleFormatTag then Some(d.sampleFormat)
    else None
  }

  /** The fixed record of a single-band float image of the given size: the
      nine fields, by tag. */
  predicate DescribesFloatImage<D>(d: FileDirectory<D>, width: nat, height: nat, rowsPerStrip: nat) {
    && Field(d, ImageWidthTag) == Some(width)
    && Field(d, ImageLengthTag) == Some(height)
    && Field(d, BitsPerSampleTag) == Some(32)
    && Field(d, CompressionTag) == Some(CompressionNone)
    && Field(d, PhotometricInterpretationTag) == Some(PhotometricBlackIsZero)
    && Field(d, SamplesPerPixelTag) == Some(1)
    && Field(d, RowsPerStripTag) == Some(rowsPerStrip)
    && Field(d, PlanarConfigurationTag) == Some(PlanarChunky)
    && Field(d, SampleFormatTag) == Some(SampleFormatFloat)
  }

  /** A directory agrees with the rasters it will write: same size and
      sample shape, and every cell of the grid holds a sample. */
  predicate AgreesWithRasters<D>(d: FileDirectory<D>) {
    var r := d.writeRasters;
    && d.imageWidth == r.width && d.imageLength == r.height
    && d.samplesPerPixel == r.samplesPerPixel && d.bitsPerSample == r.bitsPerSample
    && |r.rows| == r.height
    && (forall y :: 0 <= y < |r.rows| ==> |r.rows[y]| == r.width)
    && (forall y, x :: 0 <= y < |r.rows| && 0 <= x < |r.rows[y]| ==> r.rows[y][x].Some?)
  }

  /** TIFFImage: its list of file directories. */
  datatype TiffImage<D> = TiffImage(fileDirectories: seq<FileDirectory<D>>)

  /** What the library and the run time decide: whether each tiff_ios
      constructor returns an object, and the rows-per-strip value the
      rasters compute. */
  datatype TiffEnv = TiffEnv(
    rastersAllocated: bool,
    rowsPerStrip: nat,
    directoryAllocated: bool,
    imageAllocated: bool)

  /** One run of the writer: the Bool it returns, what it did to the
      buffer's lock, and the image handed to `TIFFWriter.writeTiff`. */
  datatype TiffRun<D> = TiffRun(ok: bool, events: seq<Event>, image: Option<TiffImage<D>>)

  /** The integer conversions the writer reaches do not trap: `Int32(_:)`
      of the size once the base address is known, `UInt16(_:)` of
      rows-per-strip once the rasters exist, and `UInt16(_:)` of the size
      once the directory exists. */
  predicate NoTrap<T>(depthMap: PixelBuffer<T>, env: TiffEnv) {
    depthMap.baseAddress.Some? ==>
      && depthMap.width <= Int32Max && depthMap.height <= Int32Max
      && (env.rastersAllocated ==>
            && env.rowsPerStrip <= UInt16Max
            && (env.directoryAllocated ==> depthMap.width <= UInt16Max && depthMap.height <= UInt16Max))
  }

  /** The raster the copy loop produces: cell (x, y) holds the decimal of
      the sample of pixel (x, y). */
  function Rasterize<T, D>(depthMap: PixelBuffer<T>, decimal: T -> D): (rows: seq<seq<Option<D>>>)
    requires depthMap.Valid() && depthMap.baseAddress.Some?
    ensures |rows| == depthMap.height
    ensures forall y :: 0 <= y < |rows| ==> |rows[y]| == depthMap.width
    ensures forall y, x :: 0 <= y < |rows| && 0 <= x < |rows[y]| ==> rows[y][x].Some?
  {
    seq(depthMap.height, (y: nat) requires y < depthMap.height =>
      seq(depthMap.width, (x: nat) requires x < depthMap.width => Some(decimal(Sample(depthMap, x, y)))))
  }

  /** Raster cell (x, y) is set, to the decimal of the store word that
      starts `y * bytesPerRow + 4 * x` bytes past the base address. */
  lemma RasterCellAtByteOffset<T, D>(depthMap: PixelBuffer<T>, decimal: T -> D, x: nat, y: nat)
    requires depthMap.Valid() && depthMap.baseAddress.Some?
    requires x < depthMap.width && y < depthMap.height
    ensures var offset := ByteOffset(depthMap.BytesPerRow(), x, y);
      && offset % Float32Size == 0
      && offset / Float32Size < |depthMap.baseAddress.value|
      && Rasterize(depthMap, decimal)[y][x] == Some(decimal(depthMap.baseAddress.value[offset / Float32Size]))
  {
    PixelWordInStore(depthMap, x, y);
    assert ByteOffset(depthMap.BytesPerRow(), x, y) == Float32Size * PixelWord(depthMap, x, y);
    assert Rasterize(depthMap, decimal)[y][x] == Some(decimal(Sample(depthMap, x, y)));
  }

  /** The copy loop: `for y in 0..<height { for x in 0..<width { ... } }`.
      It fills fresh rasters with exactly `Rasterize`, and `visited` lists
      the cells it sets, in the order it sets them. */
  method CopyPixels<T, D>(depthMap: PixelBuffer<T>, decimal: T -> D) returns (rasters: Rasters<D>, visited: seq<Cell>)
    requires depthMap.Valid() && depthMap.baseAddress.Some?
    ensures rasters == Rasters(depthMap.width, depthMap.height, 1, 32, Rasterize(depthMap, decimal))
    ensures visited == RowMajor(depthMap.width, depthMap.height)
  {
    var w, h := depthMap.width, depthMap.height;
    ghost var target := Rasterize(depthMap, decimal);
    rasters := NewRasters(w, h, 1, 32);
    visited := [];
    var y := 0;
    while y < h
      invariant 0 <= y <= h
      invariant rasters.width == w && rasters.height == h
      invariant rasters.samplesPerPixel == 1 && rasters.bitsPerSample == 32
      invariant |rasters.rows| == h
      invariant forall j :: 0 <= j < h ==> |rasters.rows[j]| == w
      invariant forall j :: 0 <= j < y ==> rasters.rows[j] == target[j]
      invariant forall j, i :: y <= j < h && 0 <= i < w ==> rasters.rows[j][i].None?
      invariant visited == RowMajor(w, y)
    {
      var x := 0;
      while x < w
        invariant 0 <= x <= w
        invariant rasters.width == w && rasters.height == h
        invariant rasters.samplesPerPixel == 1 && rasters.bitsPerSample == 32
        invariant |rasters.rows| == h
        invariant forall j :: 0 <= j < h ==> |rasters.rows[j]| == w
        invariant forall j :: 0 <= j < y ==> rasters.rows[j] == target[j]
        invariant forall i :: 0 <= i < x ==> rasters.rows[y][i] == target[y][i]
        invariant forall i :: x <= i < w ==> rasters.rows[y][i].None?
        invariant forall j, i :: y < j < h && 0 <= i < w ==> rasters.rows[j][i].None?
        invariant visited == RowMajor(w, y) + Row(y, x)
      {
        rasters := SetFirstPixelSample(rasters, x, y, decimal(Sample(depthMap, x, y)));
        RowStep(y, x);
        visited := visited + [Cell(x, y)];
        x := x + 1;
      }
      assert rasters.rows[y] == target[y];
      y := y + 1;
    }
    assert rasters.rows == target;
  }

  /** The writer. The lock is taken with flags 0 and released by hand:
      before each early return while the buffer is in use, and after the
      copy loop, so before the file is written. The outcome of
      `TIFFWriter.writeTiff` is not looked at. */
  function Write<T, D>(depthMap: PixelBuffer<T>, env: TiffEnv, decimal: T -> D): (r: TiffRun<D>)
    requires depthMap.Valid() && NoTrap(depthMap, env)
    ensures Balanced(r.events) && Locks(r.events) == 1 && Unlocks(r.events) == 1
    ensures |r.events| >= 2 && r.events[0] == Lock(false)
    ensures WritesWhile(r.events, false)
    ensures r.ok <==> depthMap.baseAddress.Some? && env.rastersAllocated && env.directoryAllocated && env.imageAllocated
    ensures r.image.Some? <==> r.ok
    ensures WriteFile in r.events <==> r.ok
    ensures r.image.Some? ==>
      && |r.image.value.fileDirectories| == 1
      && DescribesFloatImage(r.image.value.fileDirectories[0], depthMap.width, depthMap.height, env.rowsPerStrip)
      && AgreesWithRasters(r.image.value.fileDirectories[0])
      && r.image.value.fileDirectories[0].writeRasters.rows == Rasterize(depthMap, decimal)
  {
    var lockFlags := false;
    if depthMap.baseAddress.None? || !env.rastersAllocated then
      SectionIsDisciplined(lockFlags, []);
      TiffRun(false, Section(lockFlags, []), None)
    else
      var rasters := Rasters(depthMap.width, depthMap.height, 1, 32, Rasterize(depthMap, decimal));
      var copied := Section(lockFlags, [ReadPixels]);
      SectionIsDisciplined(lockFlags, [ReadPixels]);
      if !env.directoryAllocated then
        TiffRun(false, copied, None)
      else
        var directory := FileDirectory(
          depthMap.width, depthMap.height, 32, CompressionNone, PhotometricBlackIsZero,
          1, env.rowsPerStrip, PlanarChunky, SampleFormatFloat, rasters);
        if !env.imageAllocated then
          TiffRun(false, copied, None)
        else
          WriteAfterRelease(copied);
          TiffRun(true, copied + [WriteFile], Some(TiffImage([directory])))
  }

  /** When rows carry no padding, the TIFF raster and the raw dump of the
      same buffer agree cell by cell: raster cell (x, y) is the decimal of
      raw sample y * width + x. */
  lemma TiffAgreesWithRawWhenUnpadded<T, D>(depthMap: PixelBuffer<T>, env: TiffEnv, decimal: T -> D, rawWriteSucceeds: bool)
    requires depthMap.Valid() && depthMap.baseAddress.Some? && NoTrap(depthMap, env)
    requires env.rastersAllocated && env.directoryAllocated && env.imageAllocated
    requires depthMap.wordsPerRow == depthMap.width
    ensures var raster := Write(depthMap, env, decimal).image.value.fileDirectories[0].writeRasters.rows;
            var dump := RawWriter.Write(depthMap, rawWriteSucceeds).data.value;
      forall x: nat, y: nat | x < depthMap.width && y < depthMap.height ::
        && PixelWord(depthMap, x, y) == y * depthMap.width + x
        && PixelWord(depthMap, x, y) < |dump|
        && raster[y][x] == Some(decimal(dump[PixelWord(depthMap, x, y)]))
  {
    var raster := Write(depthMap, env, decimal).image.value.fileDirectories[0].writeRasters.rows;
    var dump := RawWriter.Write(depthMap, rawWriteSucceeds).data.value;
    assert raster == Rasterize(depthMap, decimal);
    assert |dump| == depthMap.width * depthMap.height;
    forall x: nat, y: nat | x < depthMap.width && y < depthMap.height
      ensures PixelWord(depthMap, x, y) < |dump|
      ensures raster[y][x] == Some(decimal(dump[PixelWord(depthMap, x, y)]))
    {
      MulMonotone(y + 1, depthMap.height, depthMap.width);
      assert PixelWord(depthMap, x, y) < |dump|;
      assert raster[y][x] == Some(decimal(Sample(depthMap, x, y)));
    }
  }
}

=== FILE: wrappers.dfy ===
/** Swift optionals, as used throughout the model. */
module Wrappers {

  /** `T?` in Swift: either no value or some value. */
  datatype Option<+T> = None | Some(value: T)
}
